=== FILE: README.md ===
# cjet string, search and loopback routines in Dafny

This project models the pure, sequential routines of the Windows port of the
cjet broker: the byte-string search `memmem`, its copy `jet_memmem`, the
case-insensitive substring search `jet_strcasestr`, the string copy
`duplicate_string`, and the loopback test `is_localhost` that the accept loop
uses to classify a peer as local. The broker's state registry, fetch engine
and call router are outside this model.

Conventions:

- C strings are `seq<char>` without the terminating NUL. `LibC.CString` says
  that none of their characters is NUL, and duplicate_string requires it. One
  Dafny `char` stands for one C `char`. The case-insensitive search further
  requires ASCII (`LibC.AsciiCString`).
- Byte buffers are `seq<byte>`, where `byte` is an integer newtype in 0..255.
- A returned pointer into a buffer is an `Option<nat>` offset, and `None` is NULL.

Modules:

- `Wrappers` (wrappers.dfy): `Option`.
- `LibC` (libc.dfy): `memchr`, the `memcmp(...) == 0` test and the "C"-locale
  `tolower`/`toupper`, as the C standard defines them. Their preconditions are
  the in-bounds obligations of every read.
- `MemMem` (memmem.dfy): the naive reference loop kept commented out in
  memmem.c, the first-occurrence specification, and the active
  memchr/memcmp loop. The active loop is proved to return the reference's result.
- `JetString` (jet_string.dfy): `jet_strcasestr` as a function mirroring its
  loop, with soundness, case-insensitivity and the incompleteness witness;
  `jet_memmem`; `duplicate_string`.
- `WindowsIo` (windows_io.dfy): `is_localhost` over a `sockaddr_storage`
  (family tag plus 128 raw bytes), checked against an independent description
  of the three trusted addresses.

## Model

| member | source | states |
|---|---|---|
| LibC.ToLower | src/windows/jet_string.c:41-53 | "C"-locale tolower: each of the 26 ASCII capitals maps to its small letter, 32 code points up; every other character is unchanged |
| LibC.MemEqual | src/windows/memmem.c:74 | `memcmp(...) == 0` holds exactly when the two windows agree byte by byte; its precondition is that both reads stay in bounds |
| MemMem.SizeSub | src/windows/memmem.c:56 | subtraction on `size_t`: the true difference when no underflow occurs, and the difference plus 2^64 when it does |
| MemMem.NaiveFrom | src/windows/memmem.c:36-42 | any offset the naive `for` loop returns from offset i is at or after i and starts a full occurrence of the needle |
| MemMem.NaiveMemmem | src/windows/memmem.c:28-46 | the commented-out reference returns the haystack for an empty needle and NULL for a needle longer than the haystack, and every offset it returns starts an occurrence |
| LibC.Memchr | src/windows/memmem.c:61-62 | memchr over the current window returns the first offset holding the needle's first byte, and that offset lies inside the window; None means the byte is nowhere in the window |
| MemMem.NaiveFromIsFirstFrom | src/windows/memmem.c:36-42 | the naive `for` loop started at offset i returns the least matching offset at or after i, provided none before i matches; it returns None when no offset matches |
| MemMem.NaiveMemmemIsFirstMatch | src/windows/memmem.c:28-46 | the commented-out reference returns the first occurrence for every needle: offset 0 for the empty needle, and None for a needle longer than the haystack |
| MemMem.SearchWindowLength | src/windows/memmem.c:54-56 | `haystacklen -= needlelen - 1` on size_t leaves hl - nl + 1 candidate offsets when 1 <= nl <= hl; for nl = 0 it wraps to hl + 1, one byte past the haystack |
| MemMem.Memmem | src/windows/memmem.c:48-81 | for a non-empty needle and a haystack shorter than 2^63 bytes (see "## Left out"), the memchr/memcmp loop returns the same result as the reference loop. That result is the least offset i with i + nl <= hl and the nl bytes at i equal to the needle, or NULL exactly when no offset matches (always when nl > hl). The loop terminates because the remaining length strictly decreases, every memchr and memcmp read stays inside the haystack, and the `remaining < 1` guard never fires |
| JetString.Scan | src/windows/jet_string.c:39-67 | the `while` loop and the final `*p2 == 0 ? r : 0` test: a result is only produced when the haystack left is at least as long as the needle left, because `p2` advances at most once per step of `p1` |
| JetString.ScanSound | src/windows/jet_string.c:39-65 | from any state satisfying the loop invariant (r marks the start of the current case-folded partial match of length p2 - needle), a pointer the loop returns starts a full case-insensitive occurrence |
| JetString.JetStrcasestr | src/windows/jet_string.c:33-68 | an empty needle yields the haystack itself (offset 0); any returned offset r satisfies r + \|needle\| <= \|haystack\| with tolower-equal characters throughout; a non-empty needle longer than the haystack yields NULL |
| JetString.ScanIgnoresCase | src/windows/jet_string.c:39-65 | the loop's outcome from any state depends only on the tolower images of the characters of both strings |
| JetString.StrcasestrIgnoresCase | src/windows/jet_string.c:33-68 | any two haystacks and any two needles that agree after tolower give the same result |
| JetString.StrcasestrCaseSwitch | src/windows/jet_string.c:33-68 | upper-casing the haystack or the needle, or lower-casing both, leaves the result unchanged |
| JetString.StrcasestrMissesOverlap | src/windows/jet_string.c:50-61 | the search is not complete: "aab" occurs in "aaab" at offset 1, yet the result is NULL because a mismatch after a partial match retries only the needle's first character |
| JetString.ScanSingleChar | src/windows/jet_string.c:39-65 | for a one-character needle the loop returns the first case-insensitive occurrence of that character at or after the starting point: the character at the returned offset matches and none before it does; NULL when there is none |
| JetString.StrcasestrSingleCharIsFirst | src/windows/jet_string.c:33-68 | for a one-character needle the search is complete: no earlier offset matches, and NULL exactly when no offset matches |
| JetString.JetMemmem | src/windows/jet_string.c:70-106 | for a non-empty needle the result is the first occurrence and equals the naive reference; a needle longer than the haystack gives NULL |
| JetString.DuplicateString | src/windows/jet_string.c:118-127 | when the allocation succeeds the copy, strcpy'd with its terminator into strlen + 1 characters, has the same length and characters as the input and is itself a C string; when it fails the result is NULL |
| WindowsIo.PeerAddress | src/windows/windows_io.c:205-222 | an AF_INET storage is read through the 4-byte IPv4 view; every other family is read through the 16-byte IPv6 view |
| WindowsIo.IsLocalhost | src/windows/windows_io.c:203-231 | a peer is local exactly when its address is 127.0.0.1, ::1 (section 2.5.3 of RFC 4291) or ::ffff:127.0.0.1 (section 2.5.5.2 of RFC 4291) |
| WindowsIo.Ipv4LocalIff | src/windows/windows_io.c:205-214 | an AF_INET address is local iff its four address bytes are 7f 00 00 01 |
| WindowsIo.Ipv4LoopbackBlockNotAccepted | src/windows/windows_io.c:206-214 | every accepted IPv4 address is in 127/8 (section 3.2.1.3 of RFC 1122), but 127.0.0.2, also in that block, is classified non-local |
| WindowsIo.NonInetFamiliesReadAsIpv6 | src/windows/windows_io.c:216-222 | any two family tags other than AF_INET classify the same bytes identically, and both behave like AF_INET6 |
| WindowsIo.Ipv6LocalIff | src/windows/windows_io.c:217-229 | an address read through the IPv6 view is local iff its 16 bytes are ::1 or ::ffff:127.0.0.1 |
| WindowsIo.Ipv6OthersRejected | src/windows/windows_io.c:222-229 | the unspecified address :: and the mapped address ::ffff:127.0.0.2 are non-local |

## Left out

- MemMem.Memmem: requires a non-empty needle. For nl = 0 the window computation underflows (see SearchWindowLength), and memchr reads `needle[0]` of an empty needle. Only the commented-out reference defined a result for that case, and it returned the haystack.
- JetString.JetMemmem: requires a non-empty needle, for the same reasons as memmem.
- MemMem.Memmem: the haystack length is bounded by the 64-bit `size_t` range. When the search window hl - nl + 1 is 2^63 or more, `(ptrdiff_t)haystacklen` at memmem.c:66 is negative and the C returns NULL at line 67. The model does not reproduce that overflow, so its claims are stated for haystacks below 2^63 bytes. That bound is conservative: it keeps the window below 2^63.
- JetString.JetStrcasestr: one Dafny `char` stands for one C `char`, and the model requires ASCII C strings (`LibC.AsciiCString`, codes 1..127), the only characters whose C behaviour is defined and locale-independent:
  - Bytes 0x80-0xFF reach MSVC's signed-`char` `tolower` as negative values, which C leaves undefined. Other locales are not modelled.
  - Characters above 0xFF have no C counterpart: the C compares a multi-byte encoding byte by byte. For example, with UTF-8 the haystack "ééè" is `C3 A9 C3 A9 C3 A8` and the needle "éè" is `C3 A9 C3 A8`. The C loses the partial match at byte 3 and returns NULL, whereas a character-level search would find offset 1.
- JetString.DuplicateString: requires the input to contain no NUL, as every C string does. Whether `cjet_malloc` succeeds is a parameter, not modelled allocation.
- `jet_strcasecmp` / `jet_strncasecmp` (src/windows/jet_string.c:108-116): direct calls into the Windows C runtime's `_stricmp`/`_strnicmp`, with no logic of their own.
- The rest of src/windows/windows_io.c: socket creation and options, bind/listen, the accept loop, event-loop registration, signal handling, and server start-up and tear-down. All of it is operating-system I/O.
- src/windows/main.c, src/linux/socket.c, src/windows/posix/socket.c: process bootstrap and thin wrappers over socket system calls.
- The state registry, fetch table, notification dispatcher and call router (declared in src/fetch.h) are outside this model. So are the JSON parsing and response building exercised by linux/tests/Parse.cpp and linux/epoll/tests/Response.cpp.
- The accepted address family values. `is_localhost` trusts `ss_family`: the model takes the tag and the 128 storage bytes as given and does not check that they are consistent with each other.

=== FILE: jet_string.dfy ===
/** The string helpers of src/windows/jet_string.c: a case-insensitive
    substring search, a copy of the memmem loop, and string duplication.
    C strings are sequences of characters without the terminating NUL; a
    returned `char *` into the haystack is an offset. */
module JetString {
  import opened Wrappers
  import opened LibC
  import MemMem

  /** The `len` characters of `h` from `start` equal the first `len`
      characters of `n` once both are folded with tolower. */
  predicate FoldedMatch(h: seq<char>, n: seq<char>, start: nat, len: nat)
  {
    start + len <= |h| && len <= |n| &&
    forall k :: 0 <= k < len ==> ToLower(h[start + k]) == ToLower(n[k])
  }

  /** The whole needle occurs at `start`, ignoring ASCII case. */
  predicate CaseMatchesAt(h: seq<char>, n: seq<char>, start: nat)
  {
    FoldedMatch(h, n, start, |n|)
  }

  /** The `while` loop of jet_strcasestr. `i` is `p1`, `j` is `p2` and `r` is
      the candidate result pointer. A matching character extends the partial
      match (recording where it began); a mismatch restarts the needle and
      retries only its first character against the current haystack one.
      With NUL-free strings, `i < |h|` and `j < |n|` are the loop's tests
      `*p1 != 0` and `*p2 != 0`. Since `p2` advances at most once per step
      of `p1`, a needle is only ever completed when the haystack left is at
      least as long as the needle left. */
  function Scan(h: seq<char>, n: seq<char>, i: nat, j: nat, cand: Option<nat>): (r: Option<nat>)
    requires AsciiCString(h) && AsciiCString(n)
    requires i <= |h| && j <= |n|
    ensures r.Some? ==> |n| - j <= |h| - i
    decreases |h| - i
  {
    if i < |h| && j < |n| then
      if ToLower(h[i]) == ToLower(n[j]) then
        Scan(h, n, i + 1, j + 1, if cand == None then Some(i) else cand)
      else if ToLower(h[i]) == ToLower(n[0]) then
        Scan(h, n, i + 1, 1, Some(i))
      else
        Scan(h, n, i + 1, 0, None)
    else if j == |n| then cand
    else None
  }

  /** What holds at the head of every iteration of the loop: `r` marks
      where the current partial match of length `j` began. */
  predicate ScanInvariant(h: seq<char>, n: seq<char>, i: nat, j: nat, r: Option<nat>)
  {
    i <= |h| && j <= |n| && j <= i &&
    (j > 0 ==> r == Some(i - j) && FoldedMatch(h, n, i - j, j)) &&
    (j == 0 && |n| > 0 ==> r == None) &&
    (|n| == 0 ==> r == Some(0))
  }

  lemma {:induction false} ScanSound(h: seq<char>, n: seq<char>, i: nat, j: nat, r: Option<nat>)
    requires AsciiCString(h) && AsciiCString(n)
    requires ScanInvariant(h, n, i, j, r)
    ensures Scan(h, n, i, j, r).Some? ==> CaseMatchesAt(h, n, Scan(h, n, i, j, r).value)
    decreases |h| - i
  {
    if i < |h| && j < |n| {
      if ToLower(h[i]) == ToLower(n[j]) {
        var r' := if r == None then Some(i) else r;
        assert FoldedMatch(h, n, i + 1 - (j + 1), j + 1) by {
          forall k | 0 <= k < j + 1
            ensures ToLower(h[i - j + k]) == ToLower(n[k])
          {
            if k < j {
              assert FoldedMatch(h, n, i - j, j);
            }
          }
        }
        ScanSound(h, n, i + 1, j + 1, r');
      } else if ToLower(h[i]) == ToLower(n[0]) {
        assert FoldedMatch(h, n, i, 1);
        ScanSound(h, n, i + 1, 1, Some(i));
      } else {
        ScanSound(h, n, i + 1, 0, None);
      }
    }
  }

  /** `jet_strcasestr(haystack, needle)`: an empty needle is found at the
      start of the haystack; otherwise the loop above runs from the start of
      both strings. Any offset returned is a genuine case-insensitive
      occurrence, so a needle longer than the haystack is never found. The
      search is NOT complete: see StrcasestrMissesOverlap. */
  function JetStrcasestr(h: seq<char>, n: seq<char>): (r: Option<nat>)
    requires AsciiCString(h) && AsciiCString(n)
    ensures |n| == 0 ==> r == Some(0)
    ensures r.Some? ==> r.value + |n| <= |h| && CaseMatchesAt(h, n, r.value)
    ensures 0 < |n| && |h| < |n| ==> r == None
  {
    var r0 := if |n| == 0 then Some(0) else None;
    ScanSound(h, n, 0, 0, r0);
    Scan(h, n, 0, 0, r0)
  }

  /** Two strings that agree character by character after tolower. */
  predicate FoldEquivalent(a: seq<char>, b: seq<char>)
  {
    |a| == |b| && forall k :: 0 <= k < |a| ==> ToLower(a[k]) == ToLower(b[k])
  }

  lemma {:induction false} ScanIgnoresCase(h: seq<char>, n: seq<char>, h': seq<char>, n': seq<char>,
                                           i: nat, j: nat, r: Option<nat>)
    requires AsciiCString(h) && AsciiCString(n) && AsciiCString(h') && AsciiCString(n')
    requires FoldEquivalent(h, h') && FoldEquivalent(n, n')
    requires i <= |h| && j <= |n|
    ensures Scan(h, n, i, j, r) == Scan(h', n', i, j, r)
    decreases |h| - i
  {
    if i < |h| && j < |n| {
      assert ToLower(h[i]) == ToLower(h'[i]);
      assert ToLower(n[j]) == ToLower(n'[j]);
      assert ToLower(n[0]) == ToLower(n'[0]);
      if ToLower(h[i]) == ToLower(n[j]) {
        ScanIgnoresCase(h, n, h', n', i + 1, j + 1, if r == None then Some(i) else r);
      } else if ToLower(h[i]) == ToLower(n[0]) {
        ScanIgnoresCase(h, n, h', n', i + 1, 1, Some(i));
      } else {
        ScanIgnoresCase(h, n, h', n', i + 1, 0, None);
      }
    }
  }

  /** Only the tolower images of the characters are ever compared, so the
      result is the same for any two spellings that differ in ASCII case. */
  lemma StrcasestrIgnoresCase(h: seq<char>, n: seq<char>, h': seq<char>, n': seq<char>)
    requires AsciiCString(h) && AsciiCString(n) && AsciiCString(h') && AsciiCString(n')
    requires FoldEquivalent(h, h') && FoldEquivalent(n, n')
    ensures JetStrcasestr(h, n) == JetStrcasestr(h', n')
  {
    ScanIgnoresCase(h, n, h', n', 0, 0, if |n| == 0 then Some(0) else None);
  }

  function Upper(s: seq<char>): (u: seq<char>)
    ensures |u| == |s| && forall k :: 0 <= k < |s| ==> u[k] == ToUpper(s[k])
    ensures AsciiCString(s) ==> AsciiCString(u)
  {
    seq(|s|, k requires 0 <= k < |s| => ToUpper(s[k]))
  }

  function Lower(s: seq<char>): (l: seq<char>)
    ensures |l| == |s| && forall k :: 0 <= k < |s| ==> l[k] == ToLower(s[k])
    ensures AsciiCString(s) ==> AsciiCString(l)
  {
    seq(|s|, k requires 0 <= k < |s| => ToLower(s[k]))
  }

  /** Upper- or lower-casing either argument leaves the result unchanged. */
  lemma StrcasestrCaseSwitch(h: seq<char>, n: seq<char>)
    requires AsciiCString(h) && AsciiCString(n)
    ensures JetStrcasestr(Upper(h), n) == JetStrcasestr(h, n)
    ensures JetStrcasestr(h, Upper(n)) == JetStrcasestr(h, n)
    ensures JetStrcasestr(Lower(h), Lower(n)) == JetStrcasestr(h, n)
  {
    forall c: char ensures ToLower(ToUpper(c)) == ToLower(c) && ToLower(ToLower(c)) == ToLower(c) {
      ToLowerIgnoresCase(c);
    }
    StrcasestrIgnoresCase(Upper(h), n, h, n);
    StrcasestrIgnoresCase(h, Upper(n), h, n);
    StrcasestrIgnoresCase(Lower(h), Lower(n), h, n);
  }

  /** The search does not backtrack after a partial match of two or more
      characters: in "aaab" the partial match "aa" at offset 0 fails on the
      third 'a', the restart only retries the needle's first character, and
      the real occurrence of "aab" at offset 1 is missed. */
  lemma StrcasestrMissesOverlap()
    ensures CaseMatchesAt("aaab", "aab", 1)
    ensures JetStrcasestr("aaab", "aab") == None
  {
  }

  /** For a one-character needle the restart loses nothing: the result is
      the first case-insensitive occurrence, or None when there is none. */
  lemma {:induction false} ScanSingleChar(h: seq<char>, n: seq<char>, i: nat)
    requires AsciiCString(h) && AsciiCString(n)
    requires |n| == 1 && i <= |h|
    ensures Scan(h, n, i, 0, None).Some? ==> i <= Scan(h, n, i, 0, None).value < |h|
    ensures Scan(h, n, i, 0, None).Some? ==> ToLower(h[Scan(h, n, i, 0, None).value]) == ToLower(n[0])
    ensures Scan(h, n, i, 0, None).Some? ==>
              forall k :: i <= k < Scan(h, n, i, 0, None).value ==> ToLower(h[k]) != ToLower(n[0])
    ensures Scan(h, n, i, 0, None).None? ==> forall k :: i <= k < |h| ==> ToLower(h[k]) != ToLower(n[0])
    decreases |h| - i
  {
    if i < |h| {
      if ToLower(h[i]) == ToLower(n[0]) {
        assert Scan(h, n, i, 0, None) == Scan(h, n, i + 1, 1, Some(i));
      } else {
        ScanSingleChar(h, n, i + 1);
      }
    }
  }

  lemma StrcasestrSingleCharIsFirst(h: seq<char>, n: seq<char>)
    requires AsciiCString(h) && AsciiCString(n)
    requires |n| == 1
    ensures JetStrcasestr(h, n).Some? ==>
              forall k :: 0 <= k < JetStrcasestr(h, n).value ==> !CaseMatchesAt(h, n, k)
    ensures JetStrcasestr(h, n).None? <==> forall k :: 0 <= k ==> !CaseMatchesAt(h, n, k)
  {
    ScanSingleChar(h, n, 0);
    var r := JetStrcasestr(h, n);
    if r.None? {
      forall k | 0 <= k
        ensures !CaseMatchesAt(h, n, k)
      {
        if k < |h| {
          assert ToLower(h[k]) != ToLower(n[0]);
        }
      }
    } else {
      forall k | 0 <= k < r.value
        ensures !CaseMatchesAt(h, n, k)
      {
        assert ToLower(h[k + 0]) != ToLower(n[0]);
      }
    }
  }

  /** `jet_memmem` is a line-for-line copy of the memmem loop, with the same
      requirement of a non-empty needle. */
  method JetMemmem(h: seq<byte>, n: seq<byte>) returns (r: Option<nat>)
    requires 1 <= |n|
    requires |h| < MemMem.SIZE_MODULUS
    ensures MemMem.IsFirstMatch(h, n, r)
    ensures r == MemMem.NaiveMemmem(h, n)
    ensures |n| > |h| ==> r == None
  {
    r := MemMem.Memmem(h, n);
  }

  /** `duplicate_string(s)`: allocate `strlen(s) + 1` characters, copy the
      string and its terminator with strcpy, and return the copy; when the
      allocation fails (`mallocSucceeds` is false) return NULL. */
  method DuplicateString(s: seq<char>, mallocSucceeds: bool) returns (r: Option<seq<char>>)
    requires CString(s)
    ensures !mallocSucceeds ==> r == None
    ensures mallocSucceeds ==> r.Some? && |r.value| == |s|
    ensures mallocSucceeds ==> forall k :: 0 <= k < |s| ==> r.value[k] == s[k]
    ensures mallocSucceeds ==> CString(r.value)
  {
    if !mallocSucceeds {
      return None;
    }
    // uninitialised memory of strlen(s) + 1 characters
    var buf := seq(|s| + 1, _ => 'x');
    // strcpy copies the characters and then the terminating NUL
    var src := s + ['\0'];
    var k := 0;
    while k < |src|
      invariant k <= |src| && |buf| == |src|
      invariant forall m :: 0 <= m < k ==> buf[m] == src[m]
    {
      buf := buf[k := src[k]];
      k := k + 1;
    }
    // the copy, read as a C string, ends at its first NUL
    r := Some(buf[..|s|]);
  }
}

=== FILE: libc.dfy ===
/** The C library routines the string and search code leans on, with the
    meaning the C standard gives them (memchr: section 7.24.5.1 of ISO C11;
    memcmp: section 7.24.4.1; tolower/toupper in the "C" locale: section 7.4.2).
    Buffers are sequences; a pointer into a buffer is an offset. */
module LibC {
  import opened Wrappers

  /** An `unsigned char`, the unit memchr and memcmp work on. */
  newtype byte = b: int | 0 <= b < 256

  /** `memchr(s + from, c, len)`: the offset of the first byte equal to `c`
      among the `len` bytes starting at `from`, or None. The precondition is
      the obligation that memchr only reads inside the buffer. */
  function Memchr(s: seq<byte>, from: nat, len: nat, c: byte): (r: Option<nat>)
    requires from + len <= |s|
    ensures r.Some? ==> from <= r.value < from + len && s[r.value] == c
    ensures r.Some? ==> forall k :: from <= k < r.value ==> s[k] != c
    ensures r.None? ==> forall k :: from <= k < from + len ==> s[k] != c
    decreases len
  {
    if len == 0 then None
    else if s[from] == c then Some(from)
    else Memchr(s, from + 1, len - 1, c)
  }

  /** `memcmp(a + ai, b + bi, len) == 0`: the two windows hold the same bytes.
      The precondition is the obligation that both reads stay in bounds. */
  function MemEqual(a: seq<byte>, ai: nat, b: seq<byte>, bi: nat, len: nat): (eq: bool)
    requires ai + len <= |a| && bi + len <= |b|
    ensures eq <==> forall k :: ai <= k < ai + len ==> a[k] == b[k - ai + bi]
  {
    var x, y := a[ai..ai + len], b[bi..bi + len];
    assert (forall k :: ai <= k < ai + len ==> a[k] == b[k - ai + bi]) ==> x == y by {
      if forall k :: ai <= k < ai + len ==> a[k] == b[k - ai + bi] {
        forall m | 0 <= m < len
          ensures x[m] == y[m]
        {
          assert a[ai + m] == b[ai + m - ai + bi];
        }
      }
    }
    assert x == y ==> forall k :: ai <= k < ai + len ==> a[k] == b[k - ai + bi] by {
      if x == y {
        forall k | ai <= k < ai + len
          ensures a[k] == b[k - ai + bi]
        {
          assert x[k - ai] == y[k - ai];
        }
      }
    }
    x == y
  }

  /** A C string's characters: the terminating NUL is not part of the
      sequence, so no character of it may be NUL. */
  predicate CString(s: seq<char>)
  {
    forall k :: 0 <= k < |s| ==> s[k] != '\0'
  }

  /** A C string of ASCII characters: one Dafny `char` stands for one C
      `char`, and only codes 1..127 have the same meaning in both (bytes
      from 0x80 reach MSVC's `tolower` as negative values, which C leaves
      undefined). */
  predicate AsciiCString(s: seq<char>)
  {
    forall k :: 0 <= k < |s| ==> 0 < s[k] as int < 128
  }

  predicate IsUpper(c: char) { 'A' <= c <= 'Z' }

  predicate IsLower(c: char) { 'a' <= c <= 'z' }

  /** `tolower` in the "C" locale: only the 26 ASCII capitals change. */
  function ToLower(c: char): (r: char)
    ensures IsUpper(c) ==> IsLower(r) && r as int - c as int == 32
    ensures !IsUpper(c) ==> r == c
  {
    if IsUpper(c) then (c as int + 32) as char else c
  }

  /** `toupper` in the "C" locale: only the 26 ASCII small letters change. */
  function ToUpper(c: char): (r: char)
    ensures IsLower(c) ==> IsUpper(r) && c as int - r as int == 32
    ensures !IsLower(c) ==> r == c
  {
    if IsLower(c) then (c as int - 32) as char else c
  }

  /** Switching the case of a character never changes what tolower makes of it. */
  lemma ToLowerIgnoresCase(c: char)
    ensures ToLower(ToUpper(c)) == ToLower(c)
    ensures ToLower(ToLower(c)) == ToLower(c)
  {
  }
}

=== FILE: memmem.dfy ===
/** `memmem` from src/windows/memmem.c: find a byte string inside another.
    The file keeps, commented out, a naive loop that tries every offset in
    turn; the active code instead jumps between candidate first bytes with
    memchr and confirms each candidate with memcmp. This module states the
    naive loop as the reference, proves what it computes, and proves the
    optimised loop returns exactly the same offset. */
module MemMem {
  import opened Wrappers
  import opened LibC

  /** One more than the largest `size_t` (64-bit build). */
  const SIZE_MODULUS: int := 0x1_0000_0000_0000_0000

  /** `a - b` on `size_t`, with C's unsigned wrap-around. */
  function SizeSub(a: nat, b: nat): (r: nat)
    requires a < SIZE_MODULUS && b < SIZE_MODULUS
    ensures r < SIZE_MODULUS
    ensures b <= a ==> r == a - b
    ensures a < b ==> r == a - b + SIZE_MODULUS
  {
    (a - b) % SIZE_MODULUS
  }

  /** The needle occurs in the haystack starting at offset `i`. */
  predicate MatchesAt(h: seq<byte>, n: seq<byte>, i: nat)
  {
    i + |n| <= |h| && h[i..i + |n|] == n
  }

  /** `r` is the pointer a search for the first occurrence must return:
      the least matching offset, or None when no offset matches. */
  ghost predicate IsFirstMatch(h: seq<byte>, n: seq<byte>, r: Option<nat>)
  {
    match r
    case Some(k) => MatchesAt(h, n, k) && forall i :: 0 <= i < k ==> !MatchesAt(h, n, i)
    case None => forall i :: 0 <= i ==> !MatchesAt(h, n, i)
  }

  /** At most one answer is the first occurrence. */
  lemma FirstMatchUnique(h: seq<byte>, n: seq<byte>, r1: Option<nat>, r2: Option<nat>)
    requires IsFirstMatch(h, n, r1) && IsFirstMatch(h, n, r2)
    ensures r1 == r2
  {
  }

  /** The body of the naive `for` loop from offset `i` on: the first offset
      `i <= k <= |h| - |n|` whose `|n|` bytes compare equal to the needle. */
  function NaiveFrom(h: seq<byte>, n: seq<byte>, i: nat): (r: Option<nat>)
    requires 1 <= |n| <= |h|
    ensures r.Some? ==> i <= r.value && MatchesAt(h, n, r.value)
    decreases |h| + 1 - i
  {
    if i > |h| - |n| then None
    else if MemEqual(n, 0, h, i, |n|) then Some(i)
    else NaiveFrom(h, n, i + 1)
  }

  /** The commented-out reference loop: an empty needle is found at the start
      of the haystack; a needle longer than the haystack is never found. */
  function NaiveMemmem(h: seq<byte>, n: seq<byte>): (r: Option<nat>)
    ensures |n| == 0 ==> r == Some(0)
    ensures |n| > |h| ==> r == None
    ensures r.Some? ==> MatchesAt(h, n, r.value)
  {
    if |n| == 0 then Some(0)
    else if |h| >= |n| then NaiveFrom(h, n, 0)
    else None
  }

  lemma {:induction false} NaiveFromIsFirstFrom(h: seq<byte>, n: seq<byte>, i: nat)
    requires 1 <= |n| <= |h|
    requires forall k :: 0 <= k < i ==> !MatchesAt(h, n, k)
    ensures IsFirstMatch(h, n, NaiveFrom(h, n, i))
    decreases |h| + 1 - i
  {
    if i > |h| - |n| {
      forall k | 0 <= k
        ensures !MatchesAt(h, n, k)
      {
        if k >= i {
          assert k + |n| > |h|;
        }
      }
    } else if MemEqual(n, 0, h, i, |n|) {
      assert MatchesAt(h, n, i);
    } else {
      assert !MatchesAt(h, n, i);
      NaiveFromIsFirstFrom(h, n, i + 1);
    }
  }

  /** The reference loop returns the first occurrence, for every needle
      (an empty needle occurs first at offset 0). */
  lemma NaiveMemmemIsFirstMatch(h: seq<byte>, n: seq<byte>)
    ensures IsFirstMatch(h, n, NaiveMemmem(h, n))
  {
    if |n| == 0 {
      assert MatchesAt(h, n, 0);
    } else if |h| >= |n| {
      NaiveFromIsFirstFrom(h, n, 0);
    } else {
      forall k | 0 <= k
        ensures !MatchesAt(h, n, k)
      {
      }
    }
  }

  /** The first line of the active code subtracts `needlelen - 1` from
      `haystacklen` on `size_t`. For a non-empty needle no longer than the
      haystack this is the number of candidate start offsets; for an empty
      needle `needlelen - 1` wraps to SIZE_MAX and the window becomes one
      byte longer than the haystack, which is why the active code needs a
      non-empty needle. */
  lemma SearchWindowLength(hl: nat, nl: nat)
    requires hl < SIZE_MODULUS - 1 && nl <= hl
    ensures 1 <= nl ==> SizeSub(hl, SizeSub(nl, 1)) == hl - nl + 1
    ensures nl == 0 ==> SizeSub(hl, SizeSub(nl, 1)) == hl + 1 > hl
  {
  }

  /** The active memchr/memcmp loop. `pos` is the `haystack` pointer as an
      offset and `rem` the running `haystacklen`: the number of candidate
      start offsets not yet ruled out. */
  method Memmem(h: seq<byte>, n: seq<byte>) returns (r: Option<nat>)
    requires 1 <= |n|
    requires |h| < SIZE_MODULUS
    ensures r == NaiveMemmem(h, n)
    ensures IsFirstMatch(h, n, r)
    ensures |n| > |h| ==> r == None
    ensures r.Some? ==> r.value + |n| <= |h| && h[r.value..r.value + |n|] == n
  {
    if |n| > |h| {
      r := None;
      assert IsFirstMatch(h, n, r);
      NaiveMemmemIsFirstMatch(h, n);
      return;
    }
    var pos: nat := 0;
    var rem: nat := SizeSub(|h|, SizeSub(|n|, 1));
    while rem != 0
      invariant pos + rem == |h| - |n| + 1
      invariant forall i :: 0 <= i < pos ==> !MatchesAt(h, n, i)
      decreases rem
    {
      var z := Memchr(h, pos, rem, n[0]);
      if z.None? {
        forall i | 0 <= i
          ensures !MatchesAt(h, n, i)
        {
          if pos <= i < pos + rem {
            assert h[i] != n[0];
            assert h[i..i + |n|][0] == h[i];
          }
        }
        r := None;
        NaiveMemmemIsFirstMatch(h, n);
        FirstMatchUnique(h, n, r, NaiveMemmem(h, n));
        return;
      }
      var delta := z.value - pos;
      var remaining := rem - delta;
      // the `remaining < 1` guard never fires: memchr stays inside the window
      assert remaining >= 1;
      forall i | pos <= i < z.value
        ensures !MatchesAt(h, n, i)
      {
        assert h[i] != n[0];
        assert h[i..i + |n|][0] == h[i];
      }
      rem := rem - delta;
      pos := z.value;
      if MemEqual(h, pos, n, 0, |n|) {
        r := Some(pos);
        assert MatchesAt(h, n, pos);
        NaiveMemmemIsFirstMatch(h, n);
        FirstMatchUnique(h, n, r, NaiveMemmem(h, n));
        return;
      }
      pos := pos + 1;
      rem := rem - 1;
    }
    r := None;
    forall i | 0 <= i
      ensures !MatchesAt(h, n, i)
    {
    }
    NaiveMemmemIsFirstMatch(h, n);
    FirstMatchUnique(h, n, r, NaiveMemmem(h, n));
  }
}

=== FILE: windows_io.dfy ===
/** `is_localhost` from src/windows/windows_io.c: decide whether an accepted
    peer connected over the loopback interface. The address arrives as a
    `sockaddr_storage`; the function looks only at its family tag and at the
    raw address bytes, read through the IPv4 or the IPv6 view. */
module WindowsIo {
  import opened LibC

  /** Winsock address family tags. */
  const AF_INET: nat := 2
  const AF_INET6: nat := 23

  /** Size of `struct sockaddr_storage`, and where the address bytes sit in
      its two views: `sin_addr` of `sockaddr_in` and `sin6_addr` of
      `sockaddr_in6` (each after the family and port fields; IPv6 also
      after the flow label). */
  const STORAGE_SIZE: nat := 128
  const SIN_ADDR_OFFSET: nat := 4
  const SIN6_ADDR_OFFSET: nat := 8

  /** A filled-in `sockaddr_storage`: the `ss_family` tag and the raw bytes. */
  datatype SockaddrStorage = SockaddrStorage(family: nat, raw: seq<byte>)

  predicate WellFormed(a: SockaddrStorage)
  {
    |a.raw| == STORAGE_SIZE
  }

  /** A peer address as the code reads it. */
  datatype IpAddress = V4(octets4: seq<byte>) | V6(octets16: seq<byte>)

  /** The address the two casts in the C code expose: every family other than
      AF_INET is read through the IPv6 view. */
  function PeerAddress(a: SockaddrStorage): (ip: IpAddress)
    requires WellFormed(a)
    ensures a.family == AF_INET <==> ip.V4?
    ensures ip.V4? ==> |ip.octets4| == 4
    ensures ip.V6? ==> |ip.octets16| == 16
  {
    if a.family == AF_INET then V4(a.raw[SIN_ADDR_OFFSET..SIN_ADDR_OFFSET + 4])
    else V6(a.raw[SIN6_ADDR_OFFSET..SIN6_ADDR_OFFSET + 16])
  }

  /** The IPv6 loopback address `::1` (section 2.5.3 of RFC 4291). */
  function Ipv6Loopback(): (s: seq<byte>)
    ensures |s| == 16
  {
    seq(15, _ => 0 as byte) + [1]
  }

  /** The IPv4-mapped IPv6 address `::ffff:a.b.c.d` (section 2.5.5.2 of
      RFC 4291): 80 zero bits, 16 one bits, then the IPv4 address. */
  function Ipv4Mapped(v4: seq<byte>): (s: seq<byte>)
    requires |v4| == 4
    ensures |s| == 16
  {
    seq(10, _ => 0 as byte) + [0xff, 0xff] + v4
  }

  /** The IPv4 loopback host 127.0.0.1. */
  function Ipv4Localhost(): (s: seq<byte>)
    ensures |s| == 4 && s[0] == 127
  {
    [127, 0, 0, 1]
  }

  /** The three addresses the broker trusts as local. */
  predicate IsTrustedLoopback(ip: IpAddress)
  {
    ip == V4(Ipv4Localhost()) ||
    ip == V6(Ipv6Loopback()) ||
    ip == V6(Ipv4Mapped(Ipv4Localhost()))
  }

  /** The 127.0.0.0/8 block that section 3.2.1.3 of RFC 1122 reserves for
      loopback. */
  predicate InIpv4LoopbackBlock(v4: seq<byte>)
  {
    |v4| == 4 && v4[0] == 127
  }

  /** `is_localhost`: compare the address bytes against the byte tables the
      function keeps (`7f 00 00 01` for AF_INET; the mapped and the plain
      IPv6 loopback for everything else). */
  function IsLocalhost(a: SockaddrStorage): (local: bool)
    requires WellFormed(a)
    ensures local <==> IsTrustedLoopback(PeerAddress(a))
  {
    var ipv4LocalhostBytes: seq<byte> := [0x7f, 0, 0, 1];
    var mappedIpv4LocalhostBytes: seq<byte> := [0, 0, 0, 0, 0, 0, 0, 0, 0, 0, 0xff, 0xff, 0x7f, 0, 0, 1];
    var localhostBytes: seq<byte> := [0, 0, 0, 0, 0, 0, 0, 0, 0, 0, 0, 0, 0, 0, 0, 1];
    assert ipv4LocalhostBytes == Ipv4Localhost();
    assert mappedIpv4LocalhostBytes == Ipv4Mapped(Ipv4Localhost());
    assert localhostBytes == Ipv6Loopback();
    if a.family == AF_INET then
      MemEqual(ipv4LocalhostBytes, 0, a.raw, SIN_ADDR_OFFSET, 4)
    else
      MemEqual(mappedIpv4LocalhostBytes, 0, a.raw, SIN6_ADDR_OFFSET, 16) ||
      MemEqual(localhostBytes, 0, a.raw, SIN6_ADDR_OFFSET, 16)
  }

  /** An AF_INET peer is local exactly when its address bytes are
      `7f 00 00 01`. */
  lemma Ipv4LocalIff(a: SockaddrStorage)
    requires WellFormed(a) && a.family == AF_INET
    ensures IsLocalhost(a) <==> a.raw[SIN_ADDR_OFFSET..SIN_ADDR_OFFSET + 4] == [127, 0, 0, 1]
  {
  }

  /** Only 127.0.0.1 of the RFC 1122 loopback block is accepted: every
      accepted IPv4 address lies in 127/8, but 127.0.0.2 is rejected. */
  lemma Ipv4LoopbackBlockNotAccepted(a: SockaddrStorage)
    requires WellFormed(a) && a.family == AF_INET
    ensures IsLocalhost(a) ==> InIpv4LoopbackBlock(PeerAddress(a).octets4)
    ensures a.raw[SIN_ADDR_OFFSET..SIN_ADDR_OFFSET + 4] == [127, 0, 0, 2] ==>
              InIpv4LoopbackBlock(PeerAddress(a).octets4) && !IsLocalhost(a)
  {
  }

  /** Every family tag other than AF_INET is read as IPv6: the tag itself
      does not matter beyond that. */
  lemma NonInetFamiliesReadAsIpv6(raw: seq<byte>, f1: nat, f2: nat)
    requires |raw| == STORAGE_SIZE && f1 != AF_INET && f2 != AF_INET
    ensures IsLocalhost(SockaddrStorage(f1, raw)) == IsLocalhost(SockaddrStorage(f2, raw))
    ensures IsLocalhost(SockaddrStorage(f1, raw)) == IsLocalhost(SockaddrStorage(AF_INET6, raw))
  {
  }

  /** An IPv6-view peer is local exactly when its 16 address bytes are `::1`
      or `::ffff:127.0.0.1`. */
  lemma Ipv6LocalIff(a: SockaddrStorage)
    requires WellFormed(a) && a.family != AF_INET
    ensures IsLocalhost(a) <==>
              (a.raw[SIN6_ADDR_OFFSET..SIN6_ADDR_OFFSET + 16] == Ipv6Loopback() ||
               a.raw[SIN6_ADDR_OFFSET..SIN6_ADDR_OFFSET + 16] == Ipv4Mapped([127, 0, 0, 1]))
  {
  }

  /** Neither the unspecified address `::` nor the mapped form of another
      127/8 host such as `::ffff:127.0.0.2` is local. */
  lemma Ipv6OthersRejected(a: SockaddrStorage)
    requires WellFormed(a) && a.family != AF_INET
    ensures a.raw[SIN6_ADDR_OFFSET..SIN6_ADDR_OFFSET + 16] == seq(16, _ => 0 as byte) ==> !IsLocalhost(a)
    ensures a.raw[SIN6_ADDR_OFFSET..SIN6_ADDR_OFFSET + 16] == Ipv4Mapped([127, 0, 0, 2]) ==> !IsLocalhost(a)
  {
    var v6 := a.raw[SIN6_ADDR_OFFSET..SIN6_ADDR_OFFSET + 16];
    if v6 == seq(16, _ => 0 as byte) {
      assert v6[15] != Ipv6Loopback()[15];
      assert v6[10] != Ipv4Mapped(Ipv4Localhost())[10];
    }
    if v6 == Ipv4Mapped([127, 0, 0, 2]) {
      assert v6[15] != Ipv4Mapped(Ipv4Localhost())[15];
      assert v6[10] != Ipv6Loopback()[10];
    }
  }
}

=== FILE: wrappers.dfy ===
/** The Option type used wherever the C code returns a pointer that may be NULL:
    `Some(offset)` stands for a pointer `offset` bytes into the searched buffer. */
module Wrappers {

  datatype Option<+T> = None | Some(value: T)
}
